=== FILE: README.md ===
# SmartSpider surface state machine in Dafny

This project models the surface-adherence state machine of the SmartSpider
Unreal Engine plugin. A spider character walks on floors, walls and
ceilings. Each frame it casts three probe rays (forward, backward, bottom)
and compares each impact distance to a session-constant reference distance.
The probes are classified as Equal, LessThan or GreaterThan. From them the
frame's surface state is derived: Plane, Convex or Concave (OnAir exists
but is never derived). The character then reacts through one handler per
state, notifies Blueprint listeners when the state changes or a convex
crossing begins or ends, and switches between walking with gravity and
gravity-free flying.

The engine's ray casts become inputs: a `HitResult` record
`{blockingHit, traceStart, impactPoint, impactNormal}` per probe. Engine
actions and Blueprint events become an ordered trace of `Effect` values
that each frame appends to. Vectors and distances are `real`.

Modules:

- `Vectors`: `Vec3` over `real`, squared distances, and component-wise
  vector equality within a tolerance (the engine's default is `1e-4`).
- `EnvironmentTraceHit`: the surface and distance enums, the classified
  probe result, and the strict-tolerance distance test.
- `Probes`: the tracing configuration with the constructor's defaults, the
  pose, the anchor points the probes start from, and how a raw ray
  outcome becomes a classified probe (a miss keeps the default GreaterThan).
- `Classifier`: `GetSurfaceType` and its predicates, the plane
  confirmation, and the side-effect-free `TraceEnv`.
- `Handlers`: the four reaction handlers, the dispatch switch (also as it
  sees the raw enum byte), the stick location, and the stick decision.
- `Locomotion`: `TraceEnvHandle`, the `Tick` gate, runs of frames, and the
  event and mode properties.
- `Scenarios`: worked cases over several frames with the default
  configuration.

Behaviour worth noting:

- When every probe misses, the frame is classified Convex. A missed probe
  keeps the default GreaterThan, and the Convex test looks only at the
  bottom probe. The classifier never yields OnAir, so the on-air handler,
  with its stick-when-airborne behaviour, is never reached from the loop.
- The tolerance band is strict. A squared distance exactly `tolerance`
  away from the reference is LessThan or GreaterThan, never Equal.
- `Tick` runs the loop only when the velocity-only flag is set and the
  squared speed is positive. With the flag cleared, `Tick` never runs the
  loop. `TraceEnvHandle` itself is also callable from Blueprint, and such
  calls are outside this gate.
- The convex handler builds its rotator with the Kismet `MakeRotator(Roll,
  Pitch, Yaw)` as `(0, −rate·dt, 0)`, which is a pitch. The model records
  the rotator's three components as the code builds them.

## Model

| member | source | states |
|---|---|---|
| EnvironmentTraceHit.DefaultAcceptableHitResult | Source/SmartSpider/Private/EnvironmentTraceHit.h:38-42 | a default probe result is not acceptable, reads GreaterThan and holds no hit |
| EnvironmentTraceHit.TestAgainstHitResult | Source/SmartSpider/Private/EnvironmentTraceHit.h:45-66 | the hit is left untouched; the returned flag equals `acceptable`; acceptable iff Equal; within the strict band → Equal, otherwise LessThan below the reference and GreaterThan at or above it |
| EnvironmentTraceHit.RelationBands | Source/SmartSpider/Private/EnvironmentTraceHit.h:47-63 | Equal iff the squared distance lies strictly inside (ref − tol, ref + tol); LessThan iff it is at or below ref − tol and below ref; GreaterThan iff it is at or above ref + tol and at or above ref |
| EnvironmentTraceHit.TestIgnoresPriorVerdict | Source/SmartSpider/Private/EnvironmentTraceHit.h:50-63 | the outcome depends only on the hit, not on the verdict the result held before |
| EnvironmentTraceHit.TestIdempotent | Source/SmartSpider/Private/EnvironmentTraceHit.h:45-66 | testing an already-tested result again with the same arguments changes nothing |
| EnvironmentTraceHit.BoundaryIsNotEqual | Source/SmartSpider/Private/EnvironmentTraceHit.h:51 | a difference exactly equal to the tolerance is never Equal and returns false |
| EnvironmentTraceHit.NonPositiveToleranceNeverEqual | Source/SmartSpider/Private/EnvironmentTraceHit.h:51 | with a tolerance of zero or less no probe is ever Equal |
| EnvironmentTraceHit.SurfaceOfByte | Source/SmartSpider/Private/EnvironmentTraceHit.h:7-14 | bytes 0 to 3 name the four states in declaration order; every other byte names none |
| EnvironmentTraceHit.SurfaceByteRoundTrip | Source/SmartSpider/Private/EnvironmentTraceHit.h:7-14 | encoding a surface state as its byte and reading it back gives the same state |
| Probes.DefaultConfig | Source/SmartSpider/Private/SmartSpiderCharacter.cpp:16-35 | the tracing configuration the constructor assigns: eye offset 15, bottom offset −5, assistor offset −3, stick distance 50, surface distance 100, tolerance 9, rates 540 |
| Probes.EyePosition | Source/SmartSpider/Private/SmartSpiderCharacter.h:297 | the eye lies at squared distance eyeOffset² times up's squared size from the location, and advances eyeOffset times up's squared size along up; together these place it at eyeOffset along up, above the location for a positive offset |
| Probes.BottomLocation | Source/SmartSpider/Private/SmartSpiderCharacter.h:298 | the bottom anchor lies at squared distance bottomOffset² times forward's squared size from the location and advances bottomOffset times forward's squared size along forward, so it is the location moved by bottomOffset along forward (behind it for the default −5) |
| Probes.BottomAssistorLocation | Source/SmartSpider/Private/SmartSpiderCharacter.h:299 | the assistor anchor is the bottom anchor moved along forward by the assistor offset |
| Probes.BottomTraceEnd | Source/SmartSpider/Private/SmartSpiderCharacter.cpp:367-368 | the bottom ray runs from the bottom anchor against up: its squared length is the surface distance squared times up's squared size, and it advances minus the surface distance times up's squared size along up |
| Probes.CenterTraceEnd | Source/SmartSpider/Private/SmartSpiderCharacter.cpp:360-361 | the centre ray runs from the location against up: its squared length is the stick distance squared times up's squared size, and it advances minus the stick distance times up's squared size along up |
| Probes.ClassifyProbe | Source/SmartSpider/Private/SmartSpiderCharacter.cpp:334-344 | returns whether the ray hit and keeps the raw hit; a miss stays GreaterThan and unacceptable; a hit is a fixed point of the distance test (the same shape serves the backward, bottom and assistor probes) |
| Probes.CloserThanReferenceImpliesHit | Source/SmartSpider/Private/SmartSpiderCharacter.cpp:338-341 | a probe classified Equal or LessThan must have hit |
| Probes.ClassifiedRelation | Source/SmartSpider/Private/SmartSpiderCharacter.cpp:338-341 | a classified probe is Equal iff it hit inside the band, and LessThan iff it hit at or below the band's lower edge |
| Classifier.IsSurfaceConcave | Source/SmartSpider/Private/SmartSpiderCharacter.cpp:120-123 | the surface is concave exactly when the forward probe reads LessThan (through `GetSurfaceType` and its lemmas) |
| Classifier.IsSurfaceConvex | Source/SmartSpider/Private/SmartSpiderCharacter.cpp:112-118 | the surface is convex exactly when the bottom probe reads GreaterThan (through `GetSurfaceType` and its lemmas) |
| Classifier.IsOnAir | Source/SmartSpider/Private/SmartSpiderCharacter.cpp:125-130 | all three probes read GreaterThan; `OnAirClassifiedConvex` states that such a frame is classified Convex |
| Classifier.GetSurfaceType | Source/SmartSpider/Private/SmartSpiderCharacter.cpp:219-226 | never OnAir; Concave iff forward is LessThan; Convex iff forward is not LessThan and bottom is GreaterThan; Plane otherwise |
| Classifier.SurfaceTypeIgnoresBackward | Source/SmartSpider/Private/SmartSpiderCharacter.cpp:112-123 | the backward probe never changes the classification |
| Classifier.OnAirClassifiedConvex | Source/SmartSpider/Private/SmartSpiderCharacter.cpp:125-130 | whatever the on-air test detects is classified Convex |
| Classifier.AllMissIsConvex | Source/SmartSpider/Private/SmartSpiderCharacter.cpp:369-374 | when all three rays miss, the probes read on air and the surface is Convex, for any reference and tolerance |
| Classifier.ConcaveNeedsForwardHit | Source/SmartSpider/Private/SmartSpiderCharacter.cpp:120-123 | a Concave classification implies the forward ray hit |
| Classifier.PlaneNeedsBottomHit | Source/SmartSpider/Private/SmartSpiderCharacter.cpp:112-118 | a Plane classification implies the bottom ray hit |
| Classifier.IsSurfacePlane | Source/SmartSpider/Private/SmartSpiderCharacter.cpp:132-140 | the plane is confirmed exactly when both the assistor and bottom rays hit and their normals agree within 0.01 per component |
| Classifier.DefaultTraceResult | Source/SmartSpider/Private/SmartSpiderCharacter.h:44-51 | a default trace result reads Plane and holds three default probe results |
| Classifier.DefaultTraceResultIsNotClassified | Source/SmartSpider/Private/SmartSpiderCharacter.h:44-51 | the default's Plane disagrees with the classification of its own probes, which is Convex |
| Classifier.TraceEnv | Source/SmartSpider/Private/SmartSpiderCharacter.cpp:288-301 | keeps the three raw hits and returns each probe as the probe classification makes it; Concave iff the forward ray hit at or below the band's lower edge and below the reference; Convex iff not Concave and the bottom ray missed or hit at or beyond the band's upper edge; Plane iff not Concave and the bottom ray hit below that edge; never OnAir |
| Handlers.FallbackNormalPicksFirstHit | Source/SmartSpider/Private/SmartSpiderCharacter.cpp:176 | the fallback chain yields the first hit's normal, and world-up only when nothing hit |
| Handlers.HandleOnAir | Source/SmartSpider/Private/SmartSpiderCharacter.cpp:172-180 | returns its state and scratch unchanged; when enabled it sticks toward the bottom normal, else the forward normal, else world-up; otherwise it does nothing |
| Handlers.HandlePlane | Source/SmartSpider/Private/SmartSpiderCharacter.cpp:142-148 | returns its state; desires the bottom normal if the bottom ray hit, world-up otherwise; requests a stick; emits nothing |
| Handlers.HandleConvex | Source/SmartSpider/Private/SmartSpiderCharacter.cpp:150-163 | returns its state and scratch unchanged; first announces a crossing; emits three effects with the nudge by −forward·assistorOffset in the middle when configured, and two without it; ends with the rotator (0, −rate·dt, 0) |
| Handlers.HandleConcave | Source/SmartSpider/Private/SmartSpiderCharacter.cpp:165-170 | returns its state and scratch unchanged; transitions at the current location onto the forward hit's normal |
| Handlers.HandleSurface | Source/SmartSpider/Private/SmartSpiderCharacter.h:306-321 | each state gets exactly its own handler's reaction; the state is returned; only Plane touches the scratch; a crossing begins iff Convex; a stick iff OnAir with stick enabled; the forward-normal transition iff Concave; a handler emits no notification, mode switch or rotation-rate effect |
| Handlers.HandleSurfaceByte | Source/SmartSpider/Private/SmartSpiderCharacter.h:322-326 | the byte is always returned unchanged; a byte naming no state reaches no handler and changes nothing |
| Handlers.CalcDesireStickLocation | Source/SmartSpider/Private/SmartSpiderCharacter.cpp:192-195 | the stick location lies at squared distance feetOffset² times the normal's squared size from the impact point and advances feetOffset times the normal's squared size along the normal, so it stands off the surface on the normal's side for a positive offset |
| Handlers.IsStickAndAlignWithSurface | Source/SmartSpider/Private/SmartSpiderCharacter.cpp:182-190 | aligned means the up axis equals the normal within the engine's default tolerance and the distance to the actor is within 0.1 of the feet offset; `StickToSurfacePlan` states its use |
| Handlers.StickToSurfacePlan | Source/SmartSpider/Private/SmartSpiderCharacter.cpp:303-315 | nothing happens without a centre hit or when already aligned; a misaligned up axis always transitions; a transition uses the interpolated normal and lands at the stick location off the impact point, the feet offset away for a unit normal |
| Locomotion.InitialState | Source/SmartSpider/Private/SmartSpiderCharacter.h:192 | before the first frame every persisted field is zero, so the last surface state reads OnAir |
| Locomotion.MovementFor | Source/SmartSpider/Private/SmartSpiderCharacter.cpp:255-266 | walking iff the normal equals world-up; gravity and orient-to-movement are on exactly when walking |
| Locomotion.TraceEnvHandle | Source/SmartSpider/Private/SmartSpiderCharacter.cpp:228-286 | the persisted state is the environment trace's classification, never OnAir; stick is requested iff Plane; off Plane the desired normal is the frame's starting up axis |
| Locomotion.Tick | Source/SmartSpider/Private/SmartSpiderCharacter.cpp:60-68 | with the velocity-only flag cleared, or a non-positive squared speed, nothing changes and nothing is emitted; otherwise the tick is exactly one pass of the loop, so every frame lemma applies to it |
| Locomotion.Run | Source/SmartSpider/Private/SmartSpiderCharacter.cpp:64-67 | a run in which no frame passes the tick gate (in particular with the flag cleared) changes nothing and emits nothing; when the last frame runs, the persisted state is that frame's classification; once the state has left OnAir it never returns to it |
| Locomotion.ChangeNotifiedIff | Source/SmartSpider/Private/SmartSpiderCharacter.cpp:244-246 | the change event fires iff the new state differs from the last, carrying last, new and desired normal, and no other change event is emitted |
| Locomotion.CrossEndIff | Source/SmartSpider/Private/SmartSpiderCharacter.cpp:247-250 | a crossing ends iff the last state was Convex and the new one is not |
| Locomotion.CrossBeginIff | Source/SmartSpider/Private/SmartSpiderCharacter.cpp:150-152 | a crossing begins on every frame classified Convex and on no other |
| Locomotion.DesiredNormalChoice | Source/SmartSpider/Private/SmartSpiderCharacter.cpp:230-231 | the desired normal is the bottom normal or world-up on Plane, and the frame's starting up axis otherwise |
| Locomotion.MovementModeIff | Source/SmartSpider/Private/SmartSpiderCharacter.cpp:255-266 | walking with gravity is requested iff the desired normal equals world-up, flying without gravity iff it does not |
| Locomotion.OneModeSwitchPerFrame | Source/SmartSpider/Private/SmartSpiderCharacter.cpp:255-266 | every frame switches the movement mode exactly once, to the mode its desired normal calls for, and emits no other mode switch |
| Locomotion.EpilogueModeSwitch | Source/SmartSpider/Private/SmartSpiderCharacter.cpp:255-285 | the work after the notifications holds exactly one mode switch, the one for the desired normal |
| Locomotion.StickIff | Source/SmartSpider/Private/SmartSpiderCharacter.cpp:268-271 | the loop sticks toward the desired normal iff the frame is Plane, and emits no other stick |
| Locomotion.RotationIff | Source/SmartSpider/Private/SmartSpiderCharacter.cpp:273-285 | rotation toward movement runs iff the flag is on and the persisted state is Plane; the custom rotation event fires iff configured, and the default rate update otherwise |
| Locomotion.TraceOrder | Source/SmartSpider/Private/SmartSpiderCharacter.cpp:243-285 | a frame's trace is exactly: the classified state's handler effects, then the change notification when the state changed and the crossing end when Convex was left, then the mode switch, the stick on Plane, the rate update (custom event or default) and the rotation toward movement on Plane with the flag on, and nothing else |
| Locomotion.FrameIgnoresScratch | Source/SmartSpider/Private/SmartSpiderCharacter.cpp:230-231 | two states with the same last surface produce the same frame: the previous normal and stick request are never read |
| Locomotion.FirstFrameNotifies | Source/SmartSpider/Private/SmartSpiderCharacter.h:192 | from the zero-initialised state (last = OnAir) the first frame always fires the change event |
| Locomotion.AllMissFrame | Source/SmartSpider/Private/SmartSpiderCharacter.cpp:228-266 | with every ray missing, the frame is Convex, begins a crossing, keeps the starting up axis, requests no stick, and walks iff upright |
| Locomotion.CrossEndNeverOutrunsBegin | Source/SmartSpider/Private/SmartSpiderCharacter.cpp:244-253 | over any run of ticks, crossing ends plus an open crossing at the end never exceed crossing begins plus one open at the start |
| Scenarios.ForwardCloserIsConcave | Source/SmartSpider/Private/SmartSpiderCharacter.cpp:219-221 | a forward impact at squared distance 500 against reference 1000 and tolerance 9 is LessThan and makes the surface Concave, whatever the other probes say |
| Scenarios.PlaneConvexPlane | Source/SmartSpider/Private/SmartSpiderCharacter.cpp:244-253 | for frames classified Plane, Convex, Plane, the crossing begins only on frame 2 and ends only on frame 3 (on frame 1 only if the run started Convex) |
| Scenarios.PlaneAndEdgeFrames | Source/SmartSpider/Private/SmartSpiderCharacter.cpp:219-226 | with the default tolerance, forward and bottom hits at exactly the reference distance classify as Plane, and the same frame with the bottom ray missing classifies as Convex; both frames run |
| Scenarios.PlaneConvexPlaneWitness | Source/SmartSpider/Private/SmartSpiderCharacter.cpp:228-253 | with the default configuration, a bottom ray that drops out for one frame yields Plane, Convex, Plane with the begin and end events |
| Scenarios.AirborneFrameDoesNotStick | Source/SmartSpider/Private/SmartSpiderCharacter.cpp:172-180 | with stick-when-airborne on, an upright frame where every ray misses is Convex, requests no stick of any kind, and walks |

## Left out

- Ray casts (`DoLineTrace`, `LineTraceSingleForObjects`), object-type queries, ignore lists and the trace-complex flag: engine queries whose outcomes are the model's inputs.
- Forward, backward, left and right trace directions (`RotateAngleAxis`): trigonometry in the engine library. The rays' outcomes carry their actual start points.
- `TransitionToSurface`, which uses cross products and `MakeRotationFromAxes`: engine math. It is recorded as an effect, so the idempotence of a repeated snap is not stated.
- `RotationToMovement` and `UpdateRotationRate`: engine vector and rotator math, recorded as effects.
- How the engine applies `AddActorLocalOffset` and `AddActorLocalRotation` to the pose: recorded as effects.
- `CalcSurfaceTracingDistance` and `InitTracingArgs`: a line–plane intersection computes the reference distance. The model takes the reference as a session parameter instead. The transition reference distance is never read by the loop.
- `GetFeetOffset`: the collision bounds are read from the engine. The offset is a parameter.
- Handlers.StickToSurfacePlan: the interpolated normal (`VInterpTo`) and the distance from the impact to the actor (`FVector::Dist`, a square root) are supplied as parameters, not computed. The plan is a decision, not a pose change.
- `BeginPlay`'s force-stick: a one-off engine trace followed by a teleport.
- `PostEditChangeProperty`, debug colours, sensor spheres, `ENV_TRACE_TYPE`: editor-only visualisation.
- `SpiderAIController.cpp/.h`: possession checks and a navigation request, engine AI classes only.
- `Super::Tick`: engine behaviour outside the plugin.
- Floating-point arithmetic: distances and vectors are `real`, so single-precision rounding is not modelled. `FVector::Equals` is component-wise comparison within a tolerance over the reals.
- `bDisableMovementWhenTransition`: carried in the configuration and never read, as in the source.
- The Blueprint event bodies (`OnSurfaceChange`, `OnCrossSurfaceBegin`, `OnCrossSurfaceEnd`, `OnCustomRotationUpdate`): implemented outside the plugin; the model records only that, and when, they fire.
- Blueprint writes to `LastSurfaceType`, `SurfaceNormal` and `bNeedStickToSurface`: the three fields are writable from Blueprint, and the Blueprint events fire while the loop still reads them (the crossing begin before the change test, the change event before the crossing-end test, the custom rotation event before the frame ends). The model assumes the event bodies leave them alone. Every statement about a frame's events or its persisted state rests on that assumption: the members of `Locomotion` and `Scenarios` that take a frame, a tick or a run.
- Blueprint calls to `TraceEnvHandle` outside `Tick`: the frame itself is modelled, but a Blueprint caller bypasses the velocity-only gate, so the "nothing runs" guarantees of `Tick` and `Run` cover only the engine tick.

=== FILE: classifier.dfy ===
/** The surface classifier: three classified probes (forward, backward,
    bottom) become one surface state, plus the side-effect-free
    environment trace that packages the probes with their classification. */
module Classifier {
  import opened Vectors
  import opened EnvironmentTraceHit
  import opened Probes

  predicate IsSurfaceConcave(forward: AcceptableHitResult, backward: AcceptableHitResult, bottom: AcceptableHitResult) {
    forward.relation == LessThan
  }

  predicate IsSurfaceConvex(forward: AcceptableHitResult, backward: AcceptableHitResult, bottom: AcceptableHitResult) {
    bottom.relation == GreaterThan
  }

  predicate IsOnAir(forward: AcceptableHitResult, backward: AcceptableHitResult, bottom: AcceptableHitResult) {
    && forward.relation == GreaterThan
    && backward.relation == GreaterThan
    && bottom.relation == GreaterThan
  }

  /** Concave has priority, then Convex, and Plane is the fallback; OnAir is
      never produced. */
  function GetSurfaceType(forward: AcceptableHitResult, backward: AcceptableHitResult, bottom: AcceptableHitResult): (r: Surface)
    ensures r != OnAir
    ensures r == Concave <==> forward.relation == LessThan
    ensures r == Convex <==> forward.relation != LessThan && bottom.relation == GreaterThan
    ensures r == Plane <==> forward.relation != LessThan && bottom.relation != GreaterThan
  {
    if IsSurfaceConcave(forward, backward, bottom) then Concave
    else if IsSurfaceConvex(forward, backward, bottom) then Convex
    else Plane
  }

  /** The backward probe never influences the classification. */
  lemma SurfaceTypeIgnoresBackward(forward: AcceptableHitResult, b1: AcceptableHitResult, b2: AcceptableHitResult, bottom: AcceptableHitResult)
    ensures GetSurfaceType(forward, b1, bottom) == GetSurfaceType(forward, b2, bottom)
  {
  }

  /** Whatever IsOnAir detects is classified Convex, not OnAir. */
  lemma OnAirClassifiedConvex(forward: AcceptableHitResult, backward: AcceptableHitResult, bottom: AcceptableHitResult)
    requires IsOnAir(forward, backward, bottom)
    ensures GetSurfaceType(forward, backward, bottom) == Convex
  {
  }

  /** When all three rays miss, the probes read as on air and the frame is
      classified Convex, whatever the reference and tolerance. */
  lemma AllMissIsConvex(fwdRaw: HitResult, bwdRaw: HitResult, bottomRaw: HitResult, refSq: real, toleranceSq: real)
    requires !fwdRaw.blockingHit && !bwdRaw.blockingHit && !bottomRaw.blockingHit
    ensures var f := ClassifyProbe(fwdRaw, refSq, toleranceSq).1;
            var b := ClassifyProbe(bwdRaw, refSq, toleranceSq).1;
            var d := ClassifyProbe(bottomRaw, refSq, toleranceSq).1;
            IsOnAir(f, b, d) && GetSurfaceType(f, b, d) == Convex
  {
  }

  /** A Concave classification always comes from a forward ray that hit. */
  lemma ConcaveNeedsForwardHit(fwdRaw: HitResult, bwdRaw: HitResult, bottomRaw: HitResult, refSq: real, toleranceSq: real)
    ensures var f := ClassifyProbe(fwdRaw, refSq, toleranceSq).1;
            var b := ClassifyProbe(bwdRaw, refSq, toleranceSq).1;
            var d := ClassifyProbe(bottomRaw, refSq, toleranceSq).1;
            GetSurfaceType(f, b, d) == Concave ==> fwdRaw.blockingHit
  {
    CloserThanReferenceImpliesHit(fwdRaw, refSq, toleranceSq);
  }

  /** Plane needs the bottom ray to have hit: a bottom miss reads
      GreaterThan, which is Convex unless the forward probe made it Concave. */
  lemma PlaneNeedsBottomHit(fwdRaw: HitResult, bwdRaw: HitResult, bottomRaw: HitResult, refSq: real, toleranceSq: real)
    ensures var f := ClassifyProbe(fwdRaw, refSq, toleranceSq).1;
            var b := ClassifyProbe(bwdRaw, refSq, toleranceSq).1;
            var d := ClassifyProbe(bottomRaw, refSq, toleranceSq).1;
            GetSurfaceType(f, b, d) == Plane ==> bottomRaw.blockingHit
  {
    CloserThanReferenceImpliesHit(bottomRaw, refSq, toleranceSq);
  }

  /** The plane confirmation: both the bottom and the bottom-assistor rays
      hit and their normals agree within 0.01 per component. */
  function IsSurfacePlane(assistorRaw: HitResult, bottom: AcceptableHitResult): (r: bool)
    ensures r ==> assistorRaw.blockingHit && bottom.hit.blockingHit
    ensures r ==> NearlyEqual(assistorRaw.impactNormal, bottom.hit.impactNormal, 0.01)
    ensures (assistorRaw.blockingHit && bottom.hit.blockingHit
             && NearlyEqual(assistorRaw.impactNormal, bottom.hit.impactNormal, 0.01)) ==> r
  {
    && assistorRaw.blockingHit
    && bottom.hit.blockingHit
    && NearlyEqual(assistorRaw.impactNormal, bottom.hit.impactNormal, 0.01)
  }

  /** The three classified probes and the surface they were classified as. */
  datatype TraceResult = TraceResult(
    forward: AcceptableHitResult,
    backward: AcceptableHitResult,
    bottom: AcceptableHitResult,
    surfaceType: Surface)

  /** A default trace result: Plane, with three untested probe results. */
  function DefaultTraceResult(): (r: TraceResult)
    ensures r.surfaceType == Plane
    ensures r.forward == r.backward == r.bottom == DefaultAcceptableHitResult()
  {
    var d := DefaultAcceptableHitResult();
    TraceResult(d, d, d, Plane)
  }

  /** Probes the environment and classifies it without reacting to it. */
  function TraceEnv(refSq: real, toleranceSq: real, fwdRaw: HitResult, bwdRaw: HitResult, bottomRaw: HitResult): (r: TraceResult)
    ensures r.forward.hit == fwdRaw && r.backward.hit == bwdRaw && r.bottom.hit == bottomRaw
    ensures r.forward == ClassifyProbe(fwdRaw, refSq, toleranceSq).1
    ensures r.backward == ClassifyProbe(bwdRaw, refSq, toleranceSq).1
    ensures r.bottom == ClassifyProbe(bottomRaw, refSq, toleranceSq).1
    ensures r.surfaceType != OnAir
    ensures r.surfaceType == GetSurfaceType(r.forward, r.backward, r.bottom)
    ensures var dF := ImpactDistanceSq(fwdRaw);
            r.surfaceType == Concave <==> fwdRaw.blockingHit && dF <= refSq - toleranceSq && dF < refSq
    ensures var dF := ImpactDistanceSq(fwdRaw);
            var dB := ImpactDistanceSq(bottomRaw);
            r.surfaceType == Convex <==>
              && !(fwdRaw.blockingHit && dF <= refSq - toleranceSq && dF < refSq)
              && (!bottomRaw.blockingHit || (dB >= refSq + toleranceSq && dB >= refSq))
    ensures var dF := ImpactDistanceSq(fwdRaw);
            var dB := ImpactDistanceSq(bottomRaw);
            r.surfaceType == Plane <==>
              && !(fwdRaw.blockingHit && dF <= refSq - toleranceSq && dF < refSq)
              && bottomRaw.blockingHit && (dB < refSq + toleranceSq || dB < refSq)
  {
    ClassifiedRelation(fwdRaw, refSq, toleranceSq);
    ClassifiedRelation(bottomRaw, refSq, toleranceSq);
    var f := ClassifyProbe(fwdRaw, refSq, toleranceSq).1;
    var b := ClassifyProbe(bwdRaw, refSq, toleranceSq).1;
    var d := ClassifyProbe(bottomRaw, refSq, toleranceSq).1;
    TraceResult(f, b, d, GetSurfaceType(f, b, d))
  }

  /** The default trace result claims Plane, but the classification of the
      same untested probes is Convex: the default is not what a miss yields. */
  lemma DefaultTraceResultIsNotClassified()
    ensures var d := DefaultTraceResult();
            && GetSurfaceType(d.forward, d.backward, d.bottom) == Convex
            && d.surfaceType != GetSurfaceType(d.forward, d.backward, d.bottom)
  {
  }
}

=== FILE: handlers.dfy ===
/** The reaction to a classified surface: one handler per surface state,
    the dispatch between them, and the stick-to-surface decision. A handler
    never changes the state it is given; what it does to the world is
    recorded as effects (Blueprint events and requests to the engine). */
module Handlers {
  import opened Vectors
  import opened Wrappers
  import opened EnvironmentTraceHit
  import opened Probes

  datatype MovementMode = Walking | Flying

  /** What one frame does beyond its own bookkeeping, in the order it does it. */
  datatype Effect =
    | SurfaceChanged(last: Surface, next: Surface, normal: Vec3)
    | CrossSurfaceBegin
    | CrossSurfaceEnd
    | CustomRotationUpdate
    | StickToSurface(stickNormal: Vec3)
    | TransitionToSurface(location: Vec3, surfaceNormal: Vec3)
    | LocalOffset(delta: Vec3)
    | LocalRotation(roll: real, pitch: real, yaw: real)
    | SetMovement(mode: MovementMode, gravity: bool, orientToMovement: bool)
    | UpdateRotationRate
    | RotationToMovement(deltaTime: real)

  /** The per-frame scratch the handlers write: the desired surface normal
      and whether the character must be stuck to the surface later on. */
  datatype Scratch = Scratch(normal: Vec3, needStick: bool)

  /** What a handler returns: the surface state, the scratch, the effects. */
  datatype Reaction = Reaction(surface: Surface, scratch: Scratch, effects: seq<Effect>)

  /** `i` is the first candidate whose ray hit. */
  predicate FirstHit(candidates: seq<HitResult>, i: int) {
    && 0 <= i < |candidates|
    && candidates[i].blockingHit
    && forall j :: 0 <= j < i ==> !candidates[j].blockingHit
  }

  predicate NoneHit(candidates: seq<HitResult>) {
    forall j :: 0 <= j < |candidates| ==> !candidates[j].blockingHit
  }

  /** The normal of the first candidate that hit, or world-up when none did. */
  function FallbackNormal(candidates: seq<HitResult>): Vec3
    decreases |candidates|
  {
    if |candidates| == 0 then Up
    else if candidates[0].blockingHit then candidates[0].impactNormal
    else FallbackNormal(candidates[1..])
  }

  /** The fallback chain picks the first hit's normal, and world-up only
      when nothing hit. */
  lemma {:induction false} FallbackNormalPicksFirstHit(candidates: seq<HitResult>)
    ensures forall i :: FirstHit(candidates, i) ==> FallbackNormal(candidates) == candidates[i].impactNormal
    ensures NoneHit(candidates) ==> FallbackNormal(candidates) == Up
    decreases |candidates|
  {
    if |candidates| > 0 && !candidates[0].blockingHit {
      var tail := candidates[1..];
      FallbackNormalPicksFirstHit(tail);
      forall i | FirstHit(candidates, i)
        ensures FallbackNormal(candidates) == candidates[i].impactNormal
      {
        assert i > 0;
        assert FirstHit(tail, i - 1);
      }
      if NoneHit(candidates) {
        assert NoneHit(tail);
      }
    }
  }

  /** On air: when enabled, stick towards the bottom hit's normal, else the
      forward hit's normal, else world-up. */
  function HandleOnAir(cfg: Config, surface: Surface, forward: AcceptableHitResult, backward: AcceptableHitResult,
                       bottom: AcceptableHitResult, scratch: Scratch): (r: Reaction)
    ensures r.surface == surface && r.scratch == scratch
    ensures !cfg.stickIfOnAir ==> r.effects == []
    ensures cfg.stickIfOnAir ==>
              r.effects == [StickToSurface(
                              if bottom.hit.blockingHit then bottom.hit.impactNormal
                              else if forward.hit.blockingHit then forward.hit.impactNormal
                              else Up)]
  {
    var candidates := [bottom.hit, forward.hit];
    FallbackNormalPicksFirstHit(candidates);
    assert bottom.hit.blockingHit ==> FirstHit(candidates, 0);
    assert !bottom.hit.blockingHit && forward.hit.blockingHit ==> FirstHit(candidates, 1);
    var effects := if cfg.stickIfOnAir then [StickToSurface(FallbackNormal(candidates))] else [];
    Reaction(surface, scratch, effects)
  }

  /** Plane: desire the bottom hit's normal (world-up when the bottom ray
      missed) and ask for a stick later in the frame. */
  function HandlePlane(surface: Surface, forward: AcceptableHitResult, backward: AcceptableHitResult,
                       bottom: AcceptableHitResult, scratch: Scratch): (r: Reaction)
    ensures r.surface == surface && r.effects == []
    ensures r.scratch.needStick
    ensures bottom.hit.blockingHit ==> r.scratch.normal == bottom.hit.impactNormal
    ensures !bottom.hit.blockingHit ==> r.scratch.normal == Up
  {
    var candidates := [bottom.hit];
    FallbackNormalPicksFirstHit(candidates);
    assert bottom.hit.blockingHit ==> FirstHit(candidates, 0);
    Reaction(surface, Scratch(FallbackNormal(candidates), true), [])
  }

  /** Convex: announce the crossing, optionally nudge along the forward axis
      by the assistor offset, and pitch by the transition rate over the frame. */
  function HandleConvex(cfg: Config, pose: Pose, deltaTime: real, surface: Surface, forward: AcceptableHitResult,
                        backward: AcceptableHitResult, bottom: AcceptableHitResult, scratch: Scratch): (r: Reaction)
    ensures r.surface == surface && r.scratch == scratch
    ensures |r.effects| >= 2 && r.effects[0] == CrossSurfaceBegin
    ensures r.effects[|r.effects| - 1] == LocalRotation(0.0, -cfg.transitionRateDegrees * deltaTime, 0.0)
    ensures |r.effects| == if cfg.forwardOffsetOnConvex then 3 else 2
    ensures cfg.forwardOffsetOnConvex ==> r.effects[1] == LocalOffset(Scale(Neg(pose.forward), cfg.bottomAssistorOffset))
  {
    var offset := if cfg.forwardOffsetOnConvex then [LocalOffset(Scale(Neg(pose.forward), cfg.bottomAssistorOffset))] else [];
    var rotation := LocalRotation(0.0, -cfg.transitionRateDegrees * deltaTime, 0.0);
    Reaction(surface, scratch, [CrossSurfaceBegin] + offset + [rotation])
  }

  /** Concave: snap to the forward hit's normal at the current location. */
  function HandleConcave(pose: Pose, surface: Surface, forward: AcceptableHitResult, backward: AcceptableHitResult,
                         bottom: AcceptableHitResult, scratch: Scratch): (r: Reaction)
    ensures r.surface == surface && r.scratch == scratch
    ensures r.effects == [TransitionToSurface(pose.location, forward.hit.impactNormal)]
  {
    Reaction(surface, scratch, [TransitionToSurface(pose.location, forward.hit.impactNormal)])
  }

  /** The effects a handler may produce: the crossing announcement, a stick,
      a transition, and the convex nudge and pitch. Notifications, movement
      modes and rotation-rate updates belong to the loop around them. */
  predicate HandlerEffect(e: Effect) {
    e.CrossSurfaceBegin? || e.StickToSurface? || e.TransitionToSurface? || e.LocalOffset? || e.LocalRotation?
  }

  predicate HasStick(effects: seq<Effect>) {
    exists i :: 0 <= i < |effects| && effects[i].StickToSurface?
  }

  /** Sends each surface state to its own handler. */
  function HandleSurface(cfg: Config, pose: Pose, deltaTime: real, surface: Surface, forward: AcceptableHitResult,
                         backward: AcceptableHitResult, bottom: AcceptableHitResult, scratch: Scratch): (r: Reaction)
    ensures r.surface == surface
    ensures surface != Plane ==> r.scratch == scratch
    ensures surface == Plane ==> r.scratch.needStick && r.effects == []
    ensures CrossSurfaceBegin in r.effects <==> surface == Convex
    ensures HasStick(r.effects) <==> surface == OnAir && cfg.stickIfOnAir
    ensures TransitionToSurface(pose.location, forward.hit.impactNormal) in r.effects <==> surface == Concave
    ensures forall e | e in r.effects :: HandlerEffect(e)
    ensures surface == OnAir ==> r == HandleOnAir(cfg, surface, forward, backward, bottom, scratch)
    ensures surface == Plane ==> r == HandlePlane(surface, forward, backward, bottom, scratch)
    ensures surface == Convex ==> r == HandleConvex(cfg, pose, deltaTime, surface, forward, backward, bottom, scratch)
    ensures surface == Concave ==> r == HandleConcave(pose, surface, forward, backward, bottom, scratch)
  {
    match surface
    case OnAir =>
      var r := HandleOnAir(cfg, surface, forward, backward, bottom, scratch);
      assert cfg.stickIfOnAir ==> r.effects[0].StickToSurface?;
      r
    case Plane => HandlePlane(surface, forward, backward, bottom, scratch)
    case Concave => HandleConcave(pose, surface, forward, backward, bottom, scratch)
    case Convex =>
      var r := HandleConvex(cfg, pose, deltaTime, surface, forward, backward, bottom, scratch);
      assert r.effects[0] == CrossSurfaceBegin;
      r
  }

  /** The dispatch as it sees the state's byte: a byte that names no state
      reaches no handler and is returned unchanged. */
  function HandleSurfaceByte(cfg: Config, pose: Pose, deltaTime: real, code: uint8, forward: AcceptableHitResult,
                             backward: AcceptableHitResult, bottom: AcceptableHitResult, scratch: Scratch): (r: (uint8, Scratch, seq<Effect>))
    ensures r.0 == code
    ensures code >= 4 ==> r.1 == scratch && r.2 == []
    ensures code < 4 ==>
              var s := SurfaceOfByte(code).value;
              var h := HandleSurface(cfg, pose, deltaTime, s, forward, backward, bottom, scratch);
              r.1 == h.scratch && r.2 == h.effects
  {
    match SurfaceOfByte(code)
    case None => (code, scratch, [])
    case Some(s) =>
      var h := HandleSurface(cfg, pose, deltaTime, s, forward, backward, bottom, scratch);
      (ByteOfSurface(h.surface), h.scratch, h.effects)
  }

  /** Where the character stands on a surface: off the impact point along
      the normal by the feet offset. */
  function CalcDesireStickLocation(query: Vec3, normal: Vec3, feetOffset: real): (r: Vec3)
    ensures DistSq(query, r) == feetOffset * feetOffset * SizeSq(normal)
    ensures Dot(Sub(r, query), normal) == feetOffset * SizeSq(normal)
    ensures IsUnit(normal) ==> DistSq(query, r) == feetOffset * feetOffset
  {
    DistSqAlong(query, normal, feetOffset);
    Add(query, Scale(normal, feetOffset))
  }

  /** Aligned: the up axis equals the normal (engine vector equality) and the
      engine-measured distance to the actor is within 0.1 of the feet offset. */
  predicate IsStickAndAlignWithSurface(up: Vec3, normal: Vec3, distanceToActor: real, feetOffset: real) {
    NearlyEqual(up, normal, KindaSmallNumber) && Abs(distanceToActor - feetOffset) <= 0.1
  }

  datatype StickOutcome = NoSurfaceBelow | AlreadyAligned | Transition(location: Vec3, normal: Vec3)

  /** Stick to surface: when the centre ray hits and the character is not
      already aligned, snap to the stick location computed from the
      interpolated normal, which the engine supplies. */
  function StickToSurfacePlan(centre: HitResult, up: Vec3, normal: Vec3, distanceToActor: real, feetOffset: real,
                              interpNormal: Vec3): (r: StickOutcome)
    ensures r.NoSurfaceBelow? <==> !centre.blockingHit
    ensures r.AlreadyAligned? <==> centre.blockingHit && IsStickAndAlignWithSurface(up, normal, distanceToActor, feetOffset)
    ensures centre.blockingHit && !NearlyEqual(up, normal, KindaSmallNumber) ==> r.Transition?
    ensures r.Transition? ==> r.normal == interpNormal
    ensures r.Transition? ==> r.location == CalcDesireStickLocation(centre.impactPoint, interpNormal, feetOffset)
    ensures r.Transition? && IsUnit(interpNormal) ==> DistSq(centre.impactPoint, r.location) == feetOffset * feetOffset
  {
    if !centre.blockingHit then NoSurfaceBelow
    else if IsStickAndAlignWithSurface(up, normal, distanceToActor, feetOffset) then AlreadyAligned
    else Transition(CalcDesireStickLocation(centre.impactPoint, interpNormal, feetOffset), interpNormal)
  }
}

=== FILE: locomotion.dfy ===
/** The per-frame locomotion loop: probe, classify, react, notify, switch
    the movement mode, stick, update the turn rate, rotate towards movement,
    and persist the surface state. A frame's ray-cast outcomes and the
    character's pose and velocity are its inputs. */
module Locomotion {
  import opened Vectors
  import opened EnvironmentTraceHit
  import opened Probes
  import opened Classifier
  import opened Handlers

  /** What the character keeps between frames: the last surface state, the
      desired normal and the stick request of the last frame. */
  datatype SpiderState = SpiderState(last: Surface, normal: Vec3, needStick: bool)

  /** The state before the first frame: every field zero, so the last
      surface state reads OnAir. */
  const InitialState: SpiderState := SpiderState(OnAir, Zero, false)

  /** One frame's inputs: the pose at the start of the frame, the velocity,
      the frame time and the three classification rays' outcomes. */
  datatype Frame = Frame(pose: Pose, velocity: Vec3, deltaTime: real,
                         forward: HitResult, backward: HitResult, bottom: HitResult)

  /** Walking with gravity and orient-to-movement on world-up, else flying
      without either. */
  function MovementFor(normal: Vec3): (e: Effect)
    ensures e.SetMovement?
    ensures e.mode == Walking <==> NearlyEqual(normal, Up, KindaSmallNumber)
    ensures e.gravity <==> e.mode == Walking
    ensures e.orientToMovement <==> e.mode == Walking
  {
    if NearlyEqual(normal, Up, KindaSmallNumber) then SetMovement(Walking, true, true)
    else SetMovement(Flying, false, false)
  }

  /** The change notification, followed by the end of a crossing when the
      state being left was Convex. */
  function Notifications(last: Surface, current: Surface, normal: Vec3): seq<Effect> {
    if current != last then
      [SurfaceChanged(last, current, normal)] + (if last == Convex then [CrossSurfaceEnd] else [])
    else []
  }

  /** Everything after the notifications: movement mode, stick, turn rate,
      rotation towards movement. */
  function Epilogue(cfg: Config, current: Surface, scratch: Scratch, deltaTime: real): seq<Effect> {
    [MovementFor(scratch.normal)]
    + (if scratch.needStick then [StickToSurface(scratch.normal)] else [])
    + (if cfg.useCustomRotationRate then [CustomRotationUpdate] else [UpdateRotationRate])
    + (if cfg.rotationToMovement && current == Plane then [RotationToMovement(deltaTime)] else [])
  }

  /** The reaction to the frame's classified surface, starting from the
      reset scratch (normal = current up, no stick). */
  function FrameReaction(cfg: Config, refSq: real, frame: Frame): Reaction {
    var t := TraceEnv(refSq, cfg.toleranceSq, frame.forward, frame.backward, frame.bottom);
    HandleSurface(cfg, frame.pose, frame.deltaTime, t.surfaceType, t.forward, t.backward, t.bottom,
                  Scratch(frame.pose.up, false))
  }

  /** One pass of the loop. */
  function TraceEnvHandle(cfg: Config, refSq: real, s: SpiderState, frame: Frame): (r: (SpiderState, seq<Effect>))
    ensures r.0.last == TraceEnv(refSq, cfg.toleranceSq, frame.forward, frame.backward, frame.bottom).surfaceType
    ensures r.0.last != OnAir
    ensures r.0.needStick <==> r.0.last == Plane
    ensures r.0.last != Plane ==> r.0.normal == frame.pose.up
  {
    var reaction := FrameReaction(cfg, refSq, frame);
    var current := reaction.surface;
    var effects := reaction.effects
                   + Notifications(s.last, current, reaction.scratch.normal)
                   + Epilogue(cfg, current, reaction.scratch, frame.deltaTime);
    (SpiderState(current, reaction.scratch.normal, reaction.scratch.needStick), effects)
  }

  /** Whether `Tick` runs the loop: only with the velocity-only flag set and
      a positive squared speed. */
  predicate Runs(cfg: Config, frame: Frame) {
    cfg.traceWithVelocityOnly && SizeSq(frame.velocity) > 0.0
  }

  /** The engine tick: runs the loop when `Runs`, otherwise does nothing. */
  function Tick(cfg: Config, refSq: real, s: SpiderState, frame: Frame): (r: (SpiderState, seq<Effect>))
    ensures !cfg.traceWithVelocityOnly ==> r == (s, [])
    ensures SizeSq(frame.velocity) <= 0.0 ==> r == (s, [])
    ensures Runs(cfg, frame) ==> r == TraceEnvHandle(cfg, refSq, s, frame)
    ensures Runs(cfg, frame) ==> r.0.last == TraceEnv(refSq, cfg.toleranceSq, frame.forward, frame.backward, frame.bottom).surfaceType
  {
    if Runs(cfg, frame) then TraceEnvHandle(cfg, refSq, s, frame) else (s, [])
  }

  /** Consecutive ticks, their effects appended in order. */
  function Run(cfg: Config, refSq: real, s: SpiderState, frames: seq<Frame>): (r: (SpiderState, seq<Effect>))
    ensures !cfg.traceWithVelocityOnly ==> r == (s, [])
    ensures s.last != OnAir ==> r.0.last != OnAir
    ensures (forall i | 0 <= i < |frames| :: !Runs(cfg, frames[i])) ==> r == (s, [])
    ensures |frames| > 0 && Runs(cfg, frames[|frames| - 1]) ==>
              var f := frames[|frames| - 1];
              r.0.last == TraceEnv(refSq, cfg.toleranceSq, f.forward, f.backward, f.bottom).surfaceType
    decreases |frames|
  {
    if |frames| == 0 then (s, [])
    else
      var first := Tick(cfg, refSq, s, frames[0]);
      var rest := Run(cfg, refSq, first.0, frames[1..]);
      assert !cfg.traceWithVelocityOnly ==> first.1 + rest.1 == [];
      (rest.0, first.1 + rest.1)
  }

  // ---------------------------------------------------------------------
  // Properties of one frame

  /** The change notification fires exactly when the state changes, and
      carries the old state, the new state and the desired normal. */
  lemma ChangeNotifiedIff(cfg: Config, refSq: real, s: SpiderState, frame: Frame)
    ensures var r := TraceEnvHandle(cfg, refSq, s, frame);
            SurfaceChanged(s.last, r.0.last, r.0.normal) in r.1 <==> r.0.last != s.last
    ensures var r := TraceEnvHandle(cfg, refSq, s, frame);
            forall e | e in r.1 && e.SurfaceChanged? :: e == SurfaceChanged(s.last, r.0.last, r.0.normal)
  {
  }

  /** A crossing ends only on a change away from Convex. */
  lemma CrossEndIff(cfg: Config, refSq: real, s: SpiderState, frame: Frame)
    ensures var r := TraceEnvHandle(cfg, refSq, s, frame);
            CrossSurfaceEnd in r.1 <==> s.last == Convex && r.0.last != Convex
  {
  }

  /** A crossing begins on every frame classified Convex, not only on entry. */
  lemma CrossBeginIff(cfg: Config, refSq: real, s: SpiderState, frame: Frame)
    ensures var r := TraceEnvHandle(cfg, refSq, s, frame);
            CrossSurfaceBegin in r.1 <==> r.0.last == Convex
  {
  }

  /** The desired normal is the bottom hit's normal (or world-up) on Plane,
      and the up axis the frame started with otherwise. */
  lemma DesiredNormalChoice(cfg: Config, refSq: real, s: SpiderState, frame: Frame)
    ensures var r := TraceEnvHandle(cfg, refSq, s, frame);
            r.0.normal == (if r.0.last == Plane then
                             (if frame.bottom.blockingHit then frame.bottom.impactNormal else Up)
                           else frame.pose.up)
  {
  }

  /** Walking with gravity iff the desired normal is world-up; flying
      without gravity otherwise. */
  lemma MovementModeIff(cfg: Config, refSq: real, s: SpiderState, frame: Frame)
    ensures var r := TraceEnvHandle(cfg, refSq, s, frame);
            SetMovement(Walking, true, true) in r.1 <==> NearlyEqual(r.0.normal, Up, KindaSmallNumber)
    ensures var r := TraceEnvHandle(cfg, refSq, s, frame);
            SetMovement(Flying, false, false) in r.1 <==> !NearlyEqual(r.0.normal, Up, KindaSmallNumber)
  {
  }

  /** The loop sticks to the surface exactly on Plane frames, towards the
      desired normal; the on-air stick is never reached from the loop. */
  lemma StickIff(cfg: Config, refSq: real, s: SpiderState, frame: Frame)
    ensures var r := TraceEnvHandle(cfg, refSq, s, frame);
            StickToSurface(r.0.normal) in r.1 <==> r.0.last == Plane
    ensures var r := TraceEnvHandle(cfg, refSq, s, frame);
            forall e | e in r.1 && e.StickToSurface? :: e == StickToSurface(r.0.normal)
  {
    var reaction := FrameReaction(cfg, refSq, frame);
    assert !HasStick(reaction.effects);
  }

  /** Rotation towards movement runs iff the flag is on and the persisted
      state is Plane; the turn rate is updated every frame, by the custom
      event when configured. */
  lemma RotationIff(cfg: Config, refSq: real, s: SpiderState, frame: Frame)
    ensures var r := TraceEnvHandle(cfg, refSq, s, frame);
            RotationToMovement(frame.deltaTime) in r.1 <==> cfg.rotationToMovement && r.0.last == Plane
    ensures var r := TraceEnvHandle(cfg, refSq, s, frame);
            (CustomRotationUpdate in r.1 <==> cfg.useCustomRotationRate)
            && (UpdateRotationRate in r.1 <==> !cfg.useCustomRotationRate)
  {
  }

  /** The order of a frame's trace: the handler's effects first, then the
      change notification and the end of a convex crossing, then the mode
      switch, which opens the work after the notifications. */
  lemma TraceOrder(cfg: Config, refSq: real, s: SpiderState, frame: Frame)
    ensures var r := TraceEnvHandle(cfg, refSq, s, frame);
            var k := |FrameReaction(cfg, refSq, frame).effects|;
            var n := if r.0.last == s.last then 0 else if s.last == Convex then 2 else 1;
            && k + n < |r.1|
            && (forall i | 0 <= i < k :: HandlerEffect(r.1[i]))
            && (r.0.last != s.last ==> r.1[k] == SurfaceChanged(s.last, r.0.last, r.0.normal))
            && (r.0.last != s.last && s.last == Convex ==> r.1[k + 1] == CrossSurfaceEnd)
            && r.1[k + n] == MovementFor(r.0.normal)
    ensures var r := TraceEnvHandle(cfg, refSq, s, frame);
            var t := TraceEnv(refSq, cfg.toleranceSq, frame.forward, frame.backward, frame.bottom);
            var k := |FrameReaction(cfg, refSq, frame).effects|;
            var n := if r.0.last == s.last then 0 else if s.last == Convex then 2 else 1;
            && k + n <= |r.1|
            && r.1[..k] == HandleSurface(cfg, frame.pose, frame.deltaTime, r.0.last, t.forward, t.backward, t.bottom,
                                         Scratch(frame.pose.up, false)).effects
            && r.1[k + n..] == [MovementFor(r.0.normal)]
                               + (if r.0.last == Plane then [StickToSurface(r.0.normal)] else [])
                               + [if cfg.useCustomRotationRate then CustomRotationUpdate else UpdateRotationRate]
                               + (if cfg.rotationToMovement && r.0.last == Plane then [RotationToMovement(frame.deltaTime)] else [])
  {
    var reaction := FrameReaction(cfg, refSq, frame);
    var notes := Notifications(s.last, reaction.surface, reaction.scratch.normal);
    var tail := Epilogue(cfg, reaction.surface, reaction.scratch, frame.deltaTime);
    var trace := reaction.effects + notes + tail;
    var k := |reaction.effects|;
    assert forall i | 0 <= i < k :: trace[i] == reaction.effects[i];
    assert forall i | 0 <= i < |notes| :: trace[k + i] == notes[i];
    assert trace[k + |notes|] == tail[0];
    assert trace[..k] == reaction.effects;
    assert trace[k + |notes|..] == tail;
  }

  /** Only the last surface state carries over: the previous frame's normal
      and stick request are reset before they are read. */
  lemma FrameIgnoresScratch(cfg: Config, refSq: real, s1: SpiderState, s2: SpiderState, frame: Frame)
    requires s1.last == s2.last
    ensures TraceEnvHandle(cfg, refSq, s1, frame) == TraceEnvHandle(cfg, refSq, s2, frame)
  {
  }

  /** From the initial state, the first frame always announces a change,
      because the loop never classifies a frame OnAir. */
  lemma FirstFrameNotifies(cfg: Config, refSq: real, frame: Frame)
    ensures var r := TraceEnvHandle(cfg, refSq, InitialState, frame);
            SurfaceChanged(OnAir, r.0.last, r.0.normal) in r.1
  {
    ChangeNotifiedIff(cfg, refSq, InitialState, frame);
  }

  /** With every ray missing, the frame is Convex: the crossing begins, the
      desired normal stays the frame's up axis, nothing sticks, and the mode
      is walking iff that up axis is world-up. */
  lemma AllMissFrame(cfg: Config, refSq: real, s: SpiderState, frame: Frame)
    requires !frame.forward.blockingHit && !frame.backward.blockingHit && !frame.bottom.blockingHit
    ensures var r := TraceEnvHandle(cfg, refSq, s, frame);
            && r.0.last == Convex
            && CrossSurfaceBegin in r.1
            && r.0.normal == frame.pose.up
            && !r.0.needStick
            && (SetMovement(Walking, true, true) in r.1 <==> NearlyEqual(frame.pose.up, Up, KindaSmallNumber))
  {
    AllMissIsConvex(frame.forward, frame.backward, frame.bottom, refSq, cfg.toleranceSq);
    CrossBeginIff(cfg, refSq, s, frame);
    MovementModeIff(cfg, refSq, s, frame);
  }

  // ---------------------------------------------------------------------
  // Properties of a run of frames

  function Count(effects: seq<Effect>, e: Effect): nat
    decreases |effects|
  {
    if |effects| == 0 then 0
    else (if effects[0] == e then 1 else 0) + Count(effects[1..], e)
  }

  lemma {:induction false} CountAppend(a: seq<Effect>, b: seq<Effect>, e: Effect)
    ensures Count(a + b, e) == Count(a, e) + Count(b, e)
    decreases |a|
  {
    if |a| == 0 {
      assert a + b == b;
    } else {
      assert (a + b)[1..] == a[1..] + b;
      CountAppend(a[1..], b, e);
    }
  }

  function Indicator(b: bool): nat {
    if b then 1 else 0
  }

  /** One tick's crossings: one begin if the frame is Convex, one end if it
      leaves Convex, none when the loop does not run. */
  lemma TickCrossingCounts(cfg: Config, refSq: real, s: SpiderState, frame: Frame)
    ensures var r := Tick(cfg, refSq, s, frame);
            && Count(r.1, CrossSurfaceBegin) == Indicator(Runs(cfg, frame) && r.0.last == Convex)
            && Count(r.1, CrossSurfaceEnd) == Indicator(Runs(cfg, frame) && s.last == Convex && r.0.last != Convex)
            && (!Runs(cfg, frame) ==> r.0 == s)
  {
    if Runs(cfg, frame) {
      var reaction := FrameReaction(cfg, refSq, frame);
      var current := reaction.surface;
      var notes := Notifications(s.last, current, reaction.scratch.normal);
      var tail := Epilogue(cfg, current, reaction.scratch, frame.deltaTime);
      CountAppend(reaction.effects + notes, tail, CrossSurfaceBegin);
      CountAppend(reaction.effects, notes, CrossSurfaceBegin);
      CountAppend(reaction.effects + notes, tail, CrossSurfaceEnd);
      CountAppend(reaction.effects, notes, CrossSurfaceEnd);
      EpilogueHasNoCrossing(cfg, current, reaction.scratch, frame.deltaTime);
      NotificationCrossings(s.last, current, reaction.scratch.normal);
      ReactionCrossings(cfg, refSq, frame);
    }
  }

  lemma EpilogueHasNoCrossing(cfg: Config, current: Surface, scratch: Scratch, deltaTime: real)
    ensures Count(Epilogue(cfg, current, scratch, deltaTime), CrossSurfaceBegin) == 0
    ensures Count(Epilogue(cfg, current, scratch, deltaTime), CrossSurfaceEnd) == 0
  {
    var e := Epilogue(cfg, current, scratch, deltaTime);
    forall x | x in e ensures x != CrossSurfaceBegin && x != CrossSurfaceEnd { }
    CountAbsent(e, CrossSurfaceBegin);
    CountAbsent(e, CrossSurfaceEnd);
  }

  lemma {:induction false} CountAbsent(effects: seq<Effect>, e: Effect)
    requires e !in effects
    ensures Count(effects, e) == 0
    decreases |effects|
  {
    if |effects| > 0 {
      CountAbsent(effects[1..], e);
    }
  }

  lemma NotificationCrossings(last: Surface, current: Surface, normal: Vec3)
    ensures Count(Notifications(last, current, normal), CrossSurfaceBegin) == 0
    ensures Count(Notifications(last, current, normal), CrossSurfaceEnd) == Indicator(last == Convex && current != Convex)
  {
    var n := Notifications(last, current, normal);
    CountAbsent(n, CrossSurfaceBegin);
    if current != last && last == Convex {
      assert n == [SurfaceChanged(last, current, normal), CrossSurfaceEnd];
      assert n[1..] == [CrossSurfaceEnd];
      assert n[1..][1..] == [];
      assert Count(n[1..], CrossSurfaceEnd) == 1;
    } else {
      CountAbsent(n, CrossSurfaceEnd);
    }
  }

  lemma ReactionCrossings(cfg: Config, refSq: real, frame: Frame)
    ensures var reaction := FrameReaction(cfg, refSq, frame);
            && Count(reaction.effects, CrossSurfaceBegin) == Indicator(reaction.surface == Convex)
            && Count(reaction.effects, CrossSurfaceEnd) == 0
  {
    var reaction := FrameReaction(cfg, refSq, frame);
    var effects := reaction.effects;
    CountAbsent(effects, CrossSurfaceEnd);
    if reaction.surface == Convex {
      assert effects[0] == CrossSurfaceBegin;
      assert CrossSurfaceBegin !in effects[1..];
      CountAbsent(effects[1..], CrossSurfaceBegin);
    } else {
      CountAbsent(effects, CrossSurfaceBegin);
    }
  }

  /** Each frame switches the movement mode exactly once, to the mode the
      desired normal calls for; no other mode switch is emitted. */
  lemma OneModeSwitchPerFrame(cfg: Config, refSq: real, s: SpiderState, frame: Frame)
    ensures var r := TraceEnvHandle(cfg, refSq, s, frame);
            && Count(r.1, MovementFor(r.0.normal)) == 1
            && (forall e | e in r.1 && e.SetMovement? :: e == MovementFor(r.0.normal))
  {
    var reaction := FrameReaction(cfg, refSq, frame);
    var notes := Notifications(s.last, reaction.surface, reaction.scratch.normal);
    var tail := Epilogue(cfg, reaction.surface, reaction.scratch, frame.deltaTime);
    var m := MovementFor(reaction.scratch.normal);
    var head := reaction.effects + notes;
    assert forall e | e in head :: !e.SetMovement?;
    CountAbsent(head, m);
    EpilogueModeSwitch(cfg, reaction.surface, reaction.scratch, frame.deltaTime);
    CountAppend(head, tail, m);
    assert TraceEnvHandle(cfg, refSq, s, frame) == (SpiderState(reaction.surface, reaction.scratch.normal, reaction.scratch.needStick), head + tail);
  }

  lemma EpilogueModeSwitch(cfg: Config, current: Surface, scratch: Scratch, deltaTime: real)
    ensures var tail := Epilogue(cfg, current, scratch, deltaTime);
            && Count(tail, MovementFor(scratch.normal)) == 1
            && (forall e | e in tail && e.SetMovement? :: e == MovementFor(scratch.normal))
  {
    var tail := Epilogue(cfg, current, scratch, deltaTime);
    var m := MovementFor(scratch.normal);
    assert tail[0] == m;
    assert forall e | e in tail[1..] :: !e.SetMovement?;
    CountAbsent(tail[1..], m);
  }

  /** Over any run, every crossing that ended had begun: the ends, plus one
      for a crossing still open at the end, never exceed the begins plus one
      for a crossing already open at the start. */
  lemma {:induction false} CrossEndNeverOutrunsBegin(cfg: Config, refSq: real, s: SpiderState, frames: seq<Frame>)
    ensures var r := Run(cfg, refSq, s, frames);
            Count(r.1, CrossSurfaceEnd) + Indicator(r.0.last == Convex)
            <= Count(r.1, CrossSurfaceBegin) + Indicator(s.last == Convex)
    decreases |frames|
  {
    if |frames| > 0 {
      var first := Tick(cfg, refSq, s, frames[0]);
      var rest := Run(cfg, refSq, first.0, frames[1..]);
      TickCrossingCounts(cfg, refSq, s, frames[0]);
      CrossEndNeverOutrunsBegin(cfg, refSq, first.0, frames[1..]);
      CountAppend(first.1, rest.1, CrossSurfaceBegin);
      CountAppend(first.1, rest.1, CrossSurfaceEnd);
    }
  }
}

=== FILE: probes.dfy ===
/** The character's tracing configuration, its pose, the anchor points the
    probes start from, and how a raw ray-cast outcome becomes a classified
    probe result. The ray cast itself belongs to the engine: its outcome is
    an input here. */
module Probes {
  import opened Vectors
  import opened EnvironmentTraceHit

  /** The session-constant tracing configuration. Angles and speeds are
      carried for completeness; the engine math that reads them is not
      part of this model. */
  datatype Config = Config(
    eyeOffset: real,
    bottomOffset: real,
    bottomAssistorOffset: real,
    forwardBackwardDegrees: real,
    leftRightDegrees: real,
    stickDistance: real,
    surfaceDistance: real,
    toleranceSq: real,
    stickIfOnAir: bool,
    forwardOffsetOnConvex: bool,
    traceWithVelocityOnly: bool,
    forceStickAtBegin: bool,
    rotationToMovement: bool,
    disableMovementWhenTransition: bool,
    useCustomRotationRate: bool,
    rotateRateDegrees: real,
    transitionRateDegrees: real,
    stickSpeed: real)

  /** The values the character's constructor assigns. */
  const DefaultConfig: Config := Config(
    eyeOffset := 15.0,
    bottomOffset := -5.0,
    bottomAssistorOffset := -3.0,
    forwardBackwardDegrees := 45.0,
    leftRightDegrees := 45.0,
    stickDistance := 50.0,
    surfaceDistance := 100.0,
    toleranceSq := 9.0,
    stickIfOnAir := true,
    forwardOffsetOnConvex := true,
    traceWithVelocityOnly := true,
    forceStickAtBegin := true,
    rotationToMovement := true,
    disableMovementWhenTransition := true,
    useCustomRotationRate := false,
    rotateRateDegrees := 540.0,
    transitionRateDegrees := 540.0,
    stickSpeed := 50.0)

  /** The actor's location and its forward, right and up axes. */
  datatype Pose = Pose(location: Vec3, forward: Vec3, right: Vec3, up: Vec3)

  /** Where the forward and backward probes start: above the location along up. */
  function EyePosition(cfg: Config, pose: Pose): (r: Vec3)
    ensures DistSq(pose.location, r) == cfg.eyeOffset * cfg.eyeOffset * SizeSq(pose.up)
    ensures Dot(Sub(r, pose.location), pose.up) == cfg.eyeOffset * SizeSq(pose.up)
    ensures IsUnit(pose.up) ==> DistSq(pose.location, r) == cfg.eyeOffset * cfg.eyeOffset
  {
    var r := Add(pose.location, Scale(pose.up, cfg.eyeOffset));
    DistSqAlong(pose.location, pose.up, cfg.eyeOffset);
    r
  }

  /** Where the bottom probe starts: the location moved along forward. */
  function BottomLocation(cfg: Config, pose: Pose): (r: Vec3)
    ensures DistSq(pose.location, r) == cfg.bottomOffset * cfg.bottomOffset * SizeSq(pose.forward)
    ensures Dot(Sub(r, pose.location), pose.forward) == cfg.bottomOffset * SizeSq(pose.forward)
  {
    var r := Add(pose.location, Scale(pose.forward, cfg.bottomOffset));
    DistSqAlong(pose.location, pose.forward, cfg.bottomOffset);
    r
  }

  /** Where the bottom-assistor probe starts: further along forward by the
      assistor offset. */
  function BottomAssistorLocation(cfg: Config, pose: Pose): (r: Vec3)
    ensures r == Add(BottomLocation(cfg, pose), Scale(pose.forward, cfg.bottomAssistorOffset))
  {
    Add(pose.location, Scale(pose.forward, cfg.bottomOffset + cfg.bottomAssistorOffset))
  }

  /** The bottom probe's end point: straight down (against up) by the
      surface-trace distance. */
  function BottomTraceEnd(cfg: Config, pose: Pose): (r: Vec3)
    ensures DistSq(BottomLocation(cfg, pose), r) == cfg.surfaceDistance * cfg.surfaceDistance * SizeSq(pose.up)
    ensures Dot(Sub(r, BottomLocation(cfg, pose)), pose.up) == -cfg.surfaceDistance * SizeSq(pose.up)
    ensures IsUnit(pose.up) ==>
              DistSq(BottomLocation(cfg, pose), r) == cfg.surfaceDistance * cfg.surfaceDistance
  {
    var start := BottomLocation(cfg, pose);
    DistSqAgainst(start, pose.up, cfg.surfaceDistance);
    Sub(start, Scale(pose.up, cfg.surfaceDistance))
  }

  /** The centre (stick) probe's end point: straight down by the stick distance. */
  function CenterTraceEnd(cfg: Config, pose: Pose): (r: Vec3)
    ensures DistSq(pose.location, r) == cfg.stickDistance * cfg.stickDistance * SizeSq(pose.up)
    ensures Dot(Sub(r, pose.location), pose.up) == -cfg.stickDistance * SizeSq(pose.up)
    ensures IsUnit(pose.up) ==>
              DistSq(pose.location, r) == cfg.stickDistance * cfg.stickDistance
  {
    DistSqAgainst(pose.location, pose.up, cfg.stickDistance);
    Sub(pose.location, Scale(pose.up, cfg.stickDistance))
  }

  /** The shared shape of the forward, backward, bottom and bottom-assistor
      probes: a fresh default result receives the ray-cast outcome, and only
      a hit is tested against the reference. Returns whether the ray hit. */
  function ClassifyProbe(raw: HitResult, refSq: real, toleranceSq: real): (r: (bool, AcceptableHitResult))
    ensures r.0 == raw.blockingHit
    ensures r.1.hit == raw
    ensures !raw.blockingHit ==> r.1.relation == GreaterThan && !r.1.acceptable
    ensures raw.blockingHit ==> r.1 == TestAgainstHitResult(r.1, refSq, toleranceSq).1
  {
    var out := DefaultAcceptableHitResult().(hit := raw);
    if raw.blockingHit then
      TestIdempotent(out, refSq, toleranceSq);
      (true, TestAgainstHitResult(out, refSq, toleranceSq).1)
    else
      (false, out)
  }

  /** Only a probe that hit can come out LessThan or Equal. */
  lemma CloserThanReferenceImpliesHit(raw: HitResult, refSq: real, toleranceSq: real)
    ensures ClassifyProbe(raw, refSq, toleranceSq).1.relation != GreaterThan ==> raw.blockingHit
  {
  }

  /** On a hit the classified relation is exactly the band of the impact
      distance; on a miss it is GreaterThan whatever the distance. */
  lemma ClassifiedRelation(raw: HitResult, refSq: real, toleranceSq: real)
    ensures var rel := ClassifyProbe(raw, refSq, toleranceSq).1.relation;
            var d := ImpactDistanceSq(raw);
            && (rel == Equal <==> raw.blockingHit && refSq - toleranceSq < d < refSq + toleranceSq)
            && (rel == LessThan <==> raw.blockingHit && d <= refSq - toleranceSq && d < refSq)
  {
    RelationBands(DefaultAcceptableHitResult().(hit := raw), refSq, toleranceSq);
  }
}

=== FILE: scenarios.dfy ===
/** Concrete and general consequences of the loop over several frames,
    with the character's default configuration. */
module Scenarios {
  import opened Vectors
  import opened EnvironmentTraceHit
  import opened Probes
  import opened Classifier
  import opened Handlers
  import opened Locomotion

  /** A forward probe whose squared impact distance is 500 against a
      reference of 1000 and the default tolerance of 9 is LessThan, so the
      surface is Concave whatever the other probes say. */
  lemma ForwardCloserIsConcave(backward: AcceptableHitResult, bottom: AcceptableHitResult)
    ensures var fwdRaw := HitResult(true, Zero, Vec3(20.0, 10.0, 0.0), Up);
            var f := ClassifyProbe(fwdRaw, 1000.0, DefaultConfig.toleranceSq).1;
            f.relation == LessThan && GetSurfaceType(f, backward, bottom) == Concave
  {
    var fwdRaw := HitResult(true, Zero, Vec3(20.0, 10.0, 0.0), Up);
    assert ImpactDistanceSq(fwdRaw) == 500.0;
  }

  /** Three running frames classified Plane, Convex, Plane: the crossing
      begins on the second frame and ends on the third, and neither happens
      on any other of the three. */
  lemma PlaneConvexPlane(cfg: Config, refSq: real, s: SpiderState, f1: Frame, f2: Frame, f3: Frame)
    requires Runs(cfg, f1) && Runs(cfg, f2) && Runs(cfg, f3)
    requires TraceEnv(refSq, cfg.toleranceSq, f1.forward, f1.backward, f1.bottom).surfaceType == Plane
    requires TraceEnv(refSq, cfg.toleranceSq, f2.forward, f2.backward, f2.bottom).surfaceType == Convex
    requires TraceEnv(refSq, cfg.toleranceSq, f3.forward, f3.backward, f3.bottom).surfaceType == Plane
    ensures var r1 := Tick(cfg, refSq, s, f1);
            var r2 := Tick(cfg, refSq, r1.0, f2);
            var r3 := Tick(cfg, refSq, r2.0, f3);
            && CrossSurfaceBegin !in r1.1 && CrossSurfaceBegin in r2.1 && CrossSurfaceBegin !in r3.1
            && CrossSurfaceEnd !in r2.1 && CrossSurfaceEnd in r3.1
            && (CrossSurfaceEnd in r1.1 <==> s.last == Convex)
  {
    var r1 := Tick(cfg, refSq, s, f1);
    var r2 := Tick(cfg, refSq, r1.0, f2);
    CrossBeginIff(cfg, refSq, s, f1);
    CrossEndIff(cfg, refSq, s, f1);
    CrossBeginIff(cfg, refSq, r1.0, f2);
    CrossEndIff(cfg, refSq, r1.0, f2);
    CrossBeginIff(cfg, refSq, r2.0, f3);
    CrossEndIff(cfg, refSq, r2.0, f3);
  }

  const Pose0: Pose := Pose(Zero, Vec3(1.0, 0.0, 0.0), Vec3(0.0, 1.0, 0.0), Up)

  /** A ray that hits at squared distance 1000 with a world-up normal. */
  const HitAtReference: HitResult := HitResult(true, Zero, Vec3(30.0, 10.0, 0.0), Up)

  const PlaneFrame: Frame := Frame(Pose0, Vec3(1.0, 0.0, 0.0), 0.5, HitAtReference, NoHit, HitAtReference)

  const EdgeFrame: Frame := Frame(Pose0, Vec3(1.0, 0.0, 0.0), 0.5, HitAtReference, NoHit, NoHit)

  /** The Plane, Convex, Plane sequence is reachable with the default
      configuration: the bottom ray dropping out on the middle frame. */
  lemma PlaneConvexPlaneWitness()
    ensures var cfg := DefaultConfig;
            var r1 := Tick(cfg, 1000.0, InitialState, PlaneFrame);
            var r2 := Tick(cfg, 1000.0, r1.0, EdgeFrame);
            var r3 := Tick(cfg, 1000.0, r2.0, PlaneFrame);
            && r1.0.last == Plane && r2.0.last == Convex && r3.0.last == Plane
            && CrossSurfaceBegin in r2.1 && CrossSurfaceEnd in r3.1
  {
    PlaneAndEdgeFrames();
    PlaneConvexPlane(DefaultConfig, 1000.0, InitialState, PlaneFrame, EdgeFrame, PlaneFrame);
  }

  /** Both frames run, and they are classified Plane and Convex respectively. */
  lemma PlaneAndEdgeFrames()
    ensures Runs(DefaultConfig, PlaneFrame) && Runs(DefaultConfig, EdgeFrame)
    ensures TraceEnv(1000.0, DefaultConfig.toleranceSq, HitAtReference, NoHit, HitAtReference).surfaceType == Plane
    ensures TraceEnv(1000.0, DefaultConfig.toleranceSq, HitAtReference, NoHit, NoHit).surfaceType == Convex
  {
    assert ImpactDistanceSq(HitAtReference) == 1000.0;
    assert SizeSq(PlaneFrame.velocity) > 0.0;
  }

  /** Airborne with the default configuration (stick-when-airborne on):
      the frame is Convex, no stick of any kind is requested, and the mode
      stays walking when the character was upright. */
  lemma AirborneFrameDoesNotStick(refSq: real, s: SpiderState, pose: Pose, velocity: Vec3, deltaTime: real)
    requires pose.up == Up
    ensures var frame := Frame(pose, velocity, deltaTime, NoHit, NoHit, NoHit);
            var r := TraceEnvHandle(DefaultConfig, refSq, s, frame);
            && r.0.last == Convex
            && (forall e | e in r.1 :: !e.StickToSurface?)
            && SetMovement(Walking, true, true) in r.1
  {
    var frame := Frame(pose, velocity, deltaTime, NoHit, NoHit, NoHit);
    AllMissFrame(DefaultConfig, refSq, s, frame);
    StickIff(DefaultConfig, refSq, s, frame);
    NearlyEqualReflexive(Up, KindaSmallNumber);
  }
}

=== FILE: trace_hit.dfy ===
/** The surface and distance enums and the classified probe result: one
    ray-cast outcome together with how its impact distance compares to the
    session's reference distance. */
module EnvironmentTraceHit {
  import opened Vectors
  import opened Wrappers

  /** The four surface states, in declaration order (byte values 0 to 3). */
  datatype Surface = OnAir | Plane | Convex | Concave

  /** How a probe's squared impact distance compares to the reference. */
  datatype Relation = Equal | GreaterThan | LessThan

  newtype uint8 = x: int | 0 <= x < 256

  /** A ray-cast outcome: whether it hit, where the ray started, and the impact. */
  datatype HitResult = HitResult(blockingHit: bool, traceStart: Vec3, impactPoint: Vec3, impactNormal: Vec3)

  /** A default-constructed hit result: no hit, every vector zero. */
  const NoHit: HitResult := HitResult(false, Zero, Zero, Zero)

  datatype AcceptableHitResult = AcceptableHitResult(acceptable: bool, relation: Relation, hit: HitResult)

  /** The value a probe result holds before any test: not acceptable, GreaterThan. */
  function DefaultAcceptableHitResult(): (r: AcceptableHitResult)
    ensures !r.acceptable && r.relation == GreaterThan
    ensures !r.hit.blockingHit
  {
    AcceptableHitResult(false, GreaterThan, NoHit)
  }

  /** Squared distance from the ray's actual start to its impact point. */
  function ImpactDistanceSq(h: HitResult): real {
    DistSq(h.traceStart, h.impactPoint)
  }

  /** Compares the impact distance to `acceptableDistanceSq` with a strict
      tolerance band. Returns the verdict and the updated result. */
  function TestAgainstHitResult(probe: AcceptableHitResult, acceptableDistanceSq: real, tolerance: real): (r: (bool, AcceptableHitResult))
    ensures r.1.hit == probe.hit
    ensures r.0 == r.1.acceptable
    ensures r.1.acceptable <==> r.1.relation == Equal
    ensures var d := ImpactDistanceSq(probe.hit);
            Abs(d - acceptableDistanceSq) < tolerance ==> r.1.relation == Equal
    ensures var d := ImpactDistanceSq(probe.hit);
            Abs(d - acceptableDistanceSq) >= tolerance && d < acceptableDistanceSq ==> r.1.relation == LessThan
    ensures var d := ImpactDistanceSq(probe.hit);
            Abs(d - acceptableDistanceSq) >= tolerance && d >= acceptableDistanceSq ==> r.1.relation == GreaterThan
  {
    var impactDistanceSq := ImpactDistanceSq(probe.hit);
    var absDelta := Abs(impactDistanceSq - acceptableDistanceSq);
    if absDelta < tolerance then
      (true, probe.(acceptable := true, relation := Equal))
    else if impactDistanceSq < acceptableDistanceSq then
      (false, probe.(acceptable := false, relation := LessThan))
    else
      (false, probe.(acceptable := false, relation := GreaterThan))
  }

  /** The relation places the impact distance in one of three bands around
      the reference: strictly inside (ref - tol, ref + tol), at or below
      ref - tol, or at or above ref + tol. */
  lemma RelationBands(probe: AcceptableHitResult, ref: real, tol: real)
    ensures var d := ImpactDistanceSq(probe.hit);
            var rel := TestAgainstHitResult(probe, ref, tol).1.relation;
            && (rel == Equal <==> ref - tol < d < ref + tol)
            && (rel == LessThan <==> d <= ref - tol && d < ref)
            && (rel == GreaterThan <==> d >= ref + tol && d >= ref)
  {
  }

  /** The outcome does not depend on the verdict the result held before. */
  lemma TestIgnoresPriorVerdict(a: AcceptableHitResult, b: AcceptableHitResult, ref: real, tol: real)
    requires a.hit == b.hit
    ensures TestAgainstHitResult(a, ref, tol) == TestAgainstHitResult(b, ref, tol)
  {
  }

  /** Re-testing a tested result with the same arguments changes nothing. */
  lemma TestIdempotent(probe: AcceptableHitResult, ref: real, tol: real)
    ensures var once := TestAgainstHitResult(probe, ref, tol).1;
            TestAgainstHitResult(once, ref, tol) == (once.acceptable, once)
  {
  }

  /** A difference exactly equal to the tolerance is not Equal. */
  lemma BoundaryIsNotEqual(probe: AcceptableHitResult, ref: real, tol: real)
    requires Abs(ImpactDistanceSq(probe.hit) - ref) == tol
    ensures TestAgainstHitResult(probe, ref, tol).1.relation != Equal
    ensures !TestAgainstHitResult(probe, ref, tol).0
  {
  }

  /** With a tolerance of zero or less nothing is ever Equal. */
  lemma NonPositiveToleranceNeverEqual(probe: AcceptableHitResult, ref: real, tol: real)
    requires tol <= 0.0
    ensures TestAgainstHitResult(probe, ref, tol).1.relation != Equal
  {
  }

  /** The byte value of each surface state. */
  function ByteOfSurface(s: Surface): uint8 {
    match s
    case OnAir => 0
    case Plane => 1
    case Convex => 2
    case Concave => 3
  }

  /** Reads a byte as a surface state; bytes past the last state read as None. */
  function SurfaceOfByte(b: uint8): (r: Option<Surface>)
    ensures r.None? <==> b >= 4
    ensures r.Some? ==> ByteOfSurface(r.value) == b
  {
    if b == 0 then Some(OnAir)
    else if b == 1 then Some(Plane)
    else if b == 2 then Some(Convex)
    else if b == 3 then Some(Concave)
    else None
  }

  /** Encoding a surface state and reading it back gives the same state. */
  lemma SurfaceByteRoundTrip(s: Surface)
    ensures SurfaceOfByte(ByteOfSurface(s)) == Some(s)
  {
  }
}

=== FILE: vectors.dfy ===
/** Three-component vectors over the reals, standing in for the engine's
    single-precision FVector. Only the operations the surface state machine
    uses are defined; rounding is not modelled. */
module Vectors {

  datatype Vec3 = Vec3(x: real, y: real, z: real)

  const Zero: Vec3 := Vec3(0.0, 0.0, 0.0)

  /** The engine's world-up vector (0, 0, 1). */
  const Up: Vec3 := Vec3(0.0, 0.0, 1.0)

  /** The engine's default tolerance for vector equality tests. */
  const KindaSmallNumber: real := 0.0001

  function Abs(r: real): real {
    if r < 0.0 then -r else r
  }

  function Add(a: Vec3, b: Vec3): Vec3 {
    Vec3(a.x + b.x, a.y + b.y, a.z + b.z)
  }

  function Sub(a: Vec3, b: Vec3): Vec3 {
    Vec3(a.x - b.x, a.y - b.y, a.z - b.z)
  }

  function Neg(a: Vec3): Vec3 {
    Vec3(-a.x, -a.y, -a.z)
  }

  function Scale(a: Vec3, k: real): Vec3 {
    Vec3(a.x * k, a.y * k, a.z * k)
  }

  function SizeSq(a: Vec3): real {
    a.x * a.x + a.y * a.y + a.z * a.z
  }

  function Dot(a: Vec3, b: Vec3): real {
    a.x * b.x + a.y * b.y + a.z * b.z
  }

  /** Squared distance from `a` to `b`. */
  function DistSq(a: Vec3, b: Vec3): real {
    SizeSq(Sub(b, a))
  }

  predicate IsUnit(a: Vec3) {
    SizeSq(a) == 1.0
  }

  /** Component-wise equality within `tolerance`, the engine's vector test. */
  predicate NearlyEqual(a: Vec3, b: Vec3, tolerance: real) {
    Abs(a.x - b.x) <= tolerance && Abs(a.y - b.y) <= tolerance && Abs(a.z - b.z) <= tolerance
  }

  /** Moving from `p` by `k` times `n` covers squared distance `k² |n|²`
      and advances `k |n|²` along `n`; the two together fix the direction
      of the move (the displacement is then exactly `k` times `n`). */
  lemma DistSqAlong(p: Vec3, n: Vec3, k: real)
    ensures DistSq(p, Add(p, Scale(n, k))) == k * k * SizeSq(n)
    ensures Dot(Sub(Add(p, Scale(n, k)), p), n) == k * SizeSq(n)
  {
    var d := Sub(Add(p, Scale(n, k)), p);
    assert d == Scale(n, k);
    calc {
      SizeSq(d);
      (n.x * k) * (n.x * k) + (n.y * k) * (n.y * k) + (n.z * k) * (n.z * k);
      k * k * (n.x * n.x + n.y * n.y + n.z * n.z);
    }
    calc {
      Dot(d, n);
      (n.x * k) * n.x + (n.y * k) * n.y + (n.z * k) * n.z;
      k * (n.x * n.x + n.y * n.y + n.z * n.z);
    }
  }

  /** Moving from `p` by `k` times `n` in the opposite direction covers the
      same squared distance and goes back `k |n|²` along `n`. */
  lemma DistSqAgainst(p: Vec3, n: Vec3, k: real)
    ensures DistSq(p, Sub(p, Scale(n, k))) == k * k * SizeSq(n)
    ensures Dot(Sub(Sub(p, Scale(n, k)), p), n) == -k * SizeSq(n)
  {
    var d := Sub(Sub(p, Scale(n, k)), p);
    assert d == Vec3(-(n.x * k), -(n.y * k), -(n.z * k));
    calc {
      SizeSq(d);
      (n.x * k) * (n.x * k) + (n.y * k) * (n.y * k) + (n.z * k) * (n.z * k);
      k * k * (n.x * n.x + n.y * n.y + n.z * n.z);
    }
    calc {
      Dot(d, n);
      -((n.x * k) * n.x + (n.y * k) * n.y + (n.z * k) * n.z);
      -k * (n.x * n.x + n.y * n.y + n.z * n.z);
    }
  }

  /** Every vector equals itself under any non-negative tolerance. */
  lemma NearlyEqualReflexive(a: Vec3, tolerance: real)
    requires tolerance >= 0.0
    ensures NearlyEqual(a, a, tolerance)
  {
  }
}

=== FILE: wrappers.dfy ===
/** The optional-value wrapper the model uses where the source reads a raw byte. */
module Wrappers {

  datatype Option<+T> = None | Some(value: T)
}
